=== FILE: README.md ===
# Shopify registration processor, modelled in Dafny

The system is a single Express endpoint, `POST /process-shopify-registration`, that
receives a registration form (`customer`) and a set of metafield values
(`metafield`). It starts `updateMetafields` without awaiting it and then answers
200; the synchronous part of that function, up to the `fetch` call that starts
customer creation, runs before the answer goes out. That function:

1. turns the free-text Brazilian state name `UF` into a two-letter zone code;
2. creates a Shopify customer (`createIdUser`) and keeps only the digits of its id;
3. creates a company (`createCompany`) whose billing and shipping addresses carry the
   street line `Logradouro + ", " + Number` and the zone code, and keeps only the
   digits of its id;
4. assigns the customer to the company as a contact (`assignCompany`), re-wrapping
   both numeric ids into `gid://shopify/...` global ids;
5. updates the customer with a default address and four metafields (a PUT).

The model keeps the logic of that flow and replaces every network call by an
abstract answer:

- `js_values.dfy` (`JsValues`): the JavaScript values the handler handles:
  `undefined`, `null`, strings and plain objects, property reads, and the text a
  value becomes in a template literal or after `+`.
- `province.dfy` (`Province`): the 27-arm state-name switch, written arm by arm,
  checked against an explicit name-to-code table and a reverse lookup.
- `shopify_id.dfy` (`ShopifyId`): `replace(/\D/g, '')` and the global-id wrapping,
  with the round trip between them.
- `payload.dfy` (`Payload`): the metafield list, the street line and the address
  records of the outbound payloads.
- `registration.dfy` (`Registration`): the outcomes of `createIdUser` and
  `createCompany`, the ordered trace of calls made by `updateMetafields`, and the
  POST handler's 200/400 decision.

Each network answer is an `Outcome`: `Ok(gid)` (a response carrying the new record's
global id), `UserError` (a response reporting errors: top-level `errors` or a
non-empty `userErrors`, and for customer creation any response without a customer)
or `Throws` (the request throws, or reading its response does, such as reading
`.id` of a `null` company). A run of `updateMetafields` is the list of calls that went out, in
order, and whether its outer `catch` logged an error.

In several places the code does something other than what a plain description of
the flow suggests. The model follows the code:

- One might expect an unrecognised state name to skip company creation. In the
  code `provinceCode` starts as `''` and is only ever given strings, so the guard
  `provinceCode !== undefined` always passes. Company creation is attempted
  with zone code `''` (`Registration.CompanyCreatedWithProvince`).
- One might expect a request missing either top-level field to get 400. The code
  tests `!== null`, so only an explicit `null` gets 400. A missing `customer`
  gets 200, and the flow then throws on its first property read and makes no call
  (`Registration.MissingFormAcknowledgedButIdle`). A missing `metafield` gets 200 as
  well: the customer, company and assignment calls go out, and building the PUT body
  throws before the update is sent.
- The metafield keys are the Portuguese `tipo`, `marca`, `canal` and `estadual`
  (type, brand, channel, state registration).
- The customer is created with last name `trading_name`, while the company
  addresses use `Trading_name`. These are two distinct keys of the form, and the
  model reads each where the code does (`Registration.CustomerCreatedFromForm`,
  `Registration.CompanyCreatedWithProvince`).

## Model

| member | source | states |
|---|---|---|
| JsValues.ToTextCollisions | server.js:121 | Two values print the same text exactly when they are equal, both objects, or a missing value, `null` or an object beside the string `undefined`, `null` or `[object Object]` respectively. So the street line cannot tell a missing `Logradouro` from one submitted as the word `undefined`, but two distinct strings never print alike. |
| Province.ProvinceCode | server.js:248-336 | The looked-up code is either `''` or exactly two upper-case ASCII letters. |
| Province.ProvinceOf | server.js:248-336 | The switch compares strictly, so only a string can match. A string listed in the table gets its listed code, and every other value, including `undefined`, `null` and unlisted strings, gets `''`. A non-empty code is two upper-case letters, and its reverse lookup gives the string back. |
| Province.ProvinceCodeListed | server.js:251-332 | Each of the 27 listed names (for example `São Paulo`) gets exactly the code the table lists for it. |
| Province.ProvinceCodeUnlisted | server.js:333-335 | Every string outside the table gets `''`, case and accent variants of listed names included. |
| Province.NameCodeRoundTrip | server.js:251-332 | Reading a recognised name's code back through the code-to-name lookup gives the name again. So the lookup loses nothing over recognised names. |
| Province.ProvinceCodeInjective | server.js:251-332 | No two recognised spellings share a code. |
| Province.RegionsInjective | server.js:251-332 | The explicit table is injective, and all its codes are well-formed. |
| ShopifyId.StripNonDigits | server.js:173 | The stripped id holds only the characters '0' to '9' and is no longer than the input. |
| ShopifyId.StripIsSubsequence | server.js:226 | The stripped id is the input with characters deleted, its order kept. |
| ShopifyId.StripKeepsEveryDigit | server.js:226 | Every digit of the input survives, as often as it occurs there, and nothing else does. Together with the previous row, the result is exactly the input's digits in their order. |
| ShopifyId.StripConcat | server.js:173 | Stripping distributes over concatenation. |
| ShopifyId.StripFixesNumeric | server.js:173 | A string is left unchanged exactly when it is already all digits. |
| ShopifyId.StripIdempotent | server.js:226 | Stripping twice is the same as stripping once. |
| ShopifyId.CompanyPrefixHasNoDigits | server.js:59 | `gid://shopify/Company/` contains no digit. |
| ShopifyId.CustomerPrefixHasNoDigits | server.js:60 | `gid://shopify/Customer/` contains no digit. |
| ShopifyId.GidStripsToTail | server.js:59-60 | Stripping a wrapped id gives the digits of its trailing segment, whatever that segment holds. |
| ShopifyId.GidRoundTrip | server.js:59-60 | Wrapping a numeric id and stripping it again gives the id back. A global id with a numeric tail is rebuilt exactly from its stripped digits. |
| ShopifyId.GidWrappingInjective | server.js:59-60 | Each wrapper is injective, and no company global id equals a customer global id. |
| ShopifyId.GidRoundTripNeedsNumericTail | server.js:173 | Without a numeric tail the round trip fails: the tail `12a3` comes back as `123`. |
| Payload.MetafieldsFor | server.js:371-375 | Mapping over the keys gives one entry per key, in key order. Each entry is in the `custom` namespace and carries the submitted value at its key. |
| Payload.Metafields | server.js:246 | The update carries exactly four metafields, keyed tipo, marca, canal, estadual in that order. Each is in the `custom` namespace with the submitted value at its key. |
| Payload.MetafieldsDetermineValues | server.js:371-375 | Two submissions give the same metafield list exactly when they agree at the four keys. The list records those four values and depends on nothing else. |
| Payload.Address1RoundTrip | server.js:121 | Splitting the street line at its last `, ` gives back the street's and the number's text, whatever the street holds, provided the number's text contains no `, `. |
| Payload.CompanyAddressReadsAddressKeys | server.js:120-138 | The company address depends on the form only through `Logradouro`, `Number`, `Complement`, `city`, `FirstName`, `Trading_name` and `CEP`. Its country code is always `BR` and its zone code is the looked-up code. |
| Payload.CustomerAddressMatchesCompany | server.js:351-366 | The customer address repeats the company address's street line, complement, city, postal code, first name and country code. Its province code is the company's zone code, its province is the submitted `UF`, and its country is `Brazil`. |
| Registration.CreateIdUser | server.js:221-238 | Customer creation never throws. It yields a numeric id exactly when the response carries a customer, and that id is the digits of the customer's global id. Otherwise it yields `null`. |
| Registration.CreateCompany | server.js:162-182 | Company creation throws exactly when the request or the reading of its response throws. It returns `undefined` exactly on GraphQL or user errors, and on success it returns exactly the digits of the new company's global id. |
| Registration.FinishWithUpdate | server.js:349-388 | The update is sent exactly when the metafield values can be read. Earlier calls are kept. The outer catch logs exactly when the payload cannot be built or the PUT throws. |
| Registration.UpdateMetafields | server.js:339-388 | At most four calls go out, and they always form a prefix of the fixed order: customer, company, assignment, update. |
| Registration.CompanyGuardAlwaysHolds | server.js:340-342 | Once the form can be read, `CompanyGuard`, the test in front of company creation, passes for every state name. |
| Registration.StepsThatRun | server.js:339-388 | Customer and company creation run exactly when the form can be read. The assignment runs exactly when company creation also returned, even with `undefined`. The update runs exactly when, in addition, the assignment did not throw and the metafield values can be read. The customer call's outcome never stops a later step. |
| Registration.CustomerCreatedFromForm | server.js:209-215 | The customer call sends the form's `FirstName`, `trading_name` and `Email`, whatever the network answers. |
| Registration.CompanyCreatedWithProvince | server.js:115-139 | The company call is named after `FirstName`, and both its billing and its shipping address are the company address built from the form. That address carries the looked-up code as zone code, `''` whenever `UF` is not a string listed in the table. Its street line splits back into the submitted `Logradouro` and `Number` whenever the number's text holds no `, `. |
| Registration.AssignmentArguments | server.js:58-61 | The assignment receives the wrapped company id, or `gid://shopify/Company/undefined` after user errors. It receives the wrapped customer id, or `gid://shopify/Customer/null` when customer creation failed. |
| Registration.UpdateArguments | server.js:349-375 | The PUT targets the customer id as text (`null` when customer creation failed). Its address is the customer address built from the form with that id and the looked-up code, so it repeats the company addresses' street line and zone code, and it carries the four metafields. |
| Registration.Handle | server.js:78-91 | The handler answers 400, making no call, exactly when `customer` or `metafield` is `null`. Otherwise it answers 200 and starts the flow. |
| Registration.StatusIgnoresNetwork | server.js:83-86 | The status depends on the request alone, never on how the later calls fare. |
| Registration.MissingFormAcknowledgedButIdle | server.js:79-86 | A request without `customer` is answered 200 but makes no call. |
| Registration.HandleAsIntended | server.js:82-90 | The guard as its comments describe it: 400, with no call made, exactly when `customer` or `metafield` is `null` or missing. Otherwise 200 and the flow starts. |
| Registration.IntendedGuardReachesUpdate | server.js:82-90 | Under the intended guard, every acknowledged request reaches company creation. It also reaches the customer update unless company creation or the assignment throws. |

## Findings

| source | as written | input that shows it | evidently intended | confidence | as-written member | corrected member |
|---|---|---|---|---|---|---|
| server.js:82-90 | The guard tests `!== null`. A missing field reads as `undefined`, passes the guard and is answered 200. | A body `{}`: it gets 200, and the flow throws reading `customFieldValues.UF`, so no call is made. A body with `customer` but no `metafield` creates the customer and company, then throws while building the update. | The comments beside the guard say "not null or undefined": a missing field should get 400, as `!= null` would give. | medium; not executed | Registration.MissingFormAcknowledgedButIdle | Registration.HandleAsIntended |

## Left out

- The Express application, CORS, JSON body parsing and port binding: framework
  plumbing. The request body is taken as an already parsed JSON object. An array body
  would read both fields as `undefined`, like an empty object.
- The HTTP and GraphQL requests themselves, with their URLs, query text, headers,
  tokens and the shared password. These are network I/O. Each call is reduced to the
  arguments the model tracks and an abstract `Outcome`.
- Payload fields copied verbatim from the form, beyond those in the address records,
  and the exact Shopify JSON schema. `JSON.stringify` dropping `undefined` properties
  is not modelled.
- Environment-variable loading: process-wide configuration.
- The fire-and-forget start of `updateMetafields` and any interleaving of concurrent
  requests. This is concurrency, not logic. `Registration.Handle` pairs the
  immediate answer with the calls the request eventually makes.
- Console logging.
- JSON numbers, booleans and arrays as form values. `JsValues.JsValue` distinguishes
  only `undefined`, `null`, strings and objects. Property reads on strings and objects
  ignore the prototype chain, which has none of the keys the handler reads.
- Unicode normalisation: names are compared character by character, while `===`
  compares UTF-16 code units; for these names the verdict is the same, and a
  decomposed `São Paulo` is not recognised.
- JsValues.ToText: assumes parsed objects have no own `toString` or `valueOf` key.
  A form whose `Logradouro` is an object carrying such a key would make `+` call it
  (or throw); the model prints every object as `[object Object]`.

=== FILE: js_values.dfy ===
/**
 The slice of JavaScript value semantics that the registration handler relies on:
 parsed JSON values, property reads, strict comparison with `null`, string coercion
 in template literals and `+`, and the normal/abrupt completion of a call.
 */
module JsValues {

  /** A JSON-parsed value as the handler sees it. Numbers, booleans and arrays are
      not distinguished; `Undefined` is what a missing property reads as. */
  datatype JsValue =
    | Undefined
    | Null
    | Str(s: string)
    | Obj(props: map<string, JsValue>)

  /** How a call ends: with a value, or by throwing. */
  datatype Completion<T> = Normal(value: T) | Abrupt

  /** Reading `o[key]` of a plain object: a missing key reads as `undefined`. */
  function Property(o: map<string, JsValue>, key: string): JsValue {
    if key in o then o[key] else Undefined
  }

  /** A value whose properties can be read without a TypeError. */
  predicate Dereferenceable(v: JsValue) {
    !v.Undefined? && !v.Null?
  }

  /** Reading `v.key` for a value that is not `undefined` or `null`. String
      primitives have none of the properties the handler reads, so they read as
      `undefined`; on `undefined` and `null` the source throws, which callers model
      through `Dereferenceable` before reading. */
  function Get(v: JsValue, key: string): JsValue {
    match v
    case Obj(props) => Property(props, key)
    case _ => Undefined
  }

  /** The string a value becomes inside a template literal or after `+ ", " +`.
      An object is taken to have no `toString` or `valueOf` of its own, so it
      prints through `Object.prototype.toString`. */
  function ToText(v: JsValue): string {
    match v
    case Undefined => "undefined"
    case Null => "null"
    case Str(s) => s
    case Obj(_) => "[object Object]"
  }

  /** Exactly which values coercion cannot tell apart: equal values, any two
      objects, and a missing value, `null` or an object next to the submitted
      string that spells its text. Every other pair prints differently, so in
      particular two distinct strings never collide. */
  lemma ToTextCollisions(v: JsValue, w: JsValue)
    ensures ToText(v) == ToText(w) <==>
      || v == w
      || (v.Obj? && w.Obj?)
      || (v == Undefined && w == Str("undefined")) || (v == Str("undefined") && w == Undefined)
      || (v == Null && w == Str("null")) || (v == Str("null") && w == Null)
      || (v.Obj? && w == Str("[object Object]")) || (v == Str("[object Object]") && w.Obj?)
  {
  }
}

=== FILE: payload.dfy ===
/**
 The pieces of the outbound payloads that the handler computes rather than copies:
 the metafield list of the customer update, and the street line `address1` shared
 by the company's billing and shipping addresses and the customer's address.
 */
module Payload {
  import opened JsValues

  /** The namespace every metafield is written under. */
  const MetafieldNamespace: string := "custom"

  /** `keysToSearch`: the metafield keys, in the order they are sent. */
  const MetafieldKeys: seq<string> := ["tipo", "marca", "canal", "estadual"]

  datatype Metafield = Metafield(namespace: string, key: string, value: JsValue)

  /** `keys.map(key => ({ namespace: "custom", key: key, value: values[key] }))`,
      for a `values` that can be dereferenced. */
  function MetafieldsFor(keys: seq<string>, values: JsValue): (r: seq<Metafield>)
    ensures |r| == |keys|
    ensures forall i :: 0 <= i < |keys| ==> r[i].key == keys[i]
    ensures forall i :: 0 <= i < |keys| ==> r[i].namespace == MetafieldNamespace
    ensures forall i :: 0 <= i < |keys| ==> r[i].value == Get(values, keys[i])
  {
    if keys == [] then []
    else [Metafield(MetafieldNamespace, keys[0], Get(values, keys[0]))] + MetafieldsFor(keys[1..], values)
  }

  /** The metafield list of the customer update: exactly four entries, keyed
      tipo, marca, canal, estadual in that order, all in the "custom" namespace,
      each carrying the submitted value at its key (`undefined` when missing). */
  function Metafields(values: JsValue): (r: seq<Metafield>)
    ensures |r| == 4
    ensures r[0].key == "tipo" && r[1].key == "marca" && r[2].key == "canal" && r[3].key == "estadual"
    ensures forall m :: m in r ==> m.namespace == MetafieldNamespace && m.value == Get(values, m.key)
  {
    MetafieldsFor(MetafieldKeys, values)
  }

  /** The list depends on the submitted values at the four keys and on nothing
      else, and it records all four of them: two submissions give the same list
      exactly when they agree at every listed key. */
  lemma MetafieldsDetermineValues(a: JsValue, b: JsValue)
    ensures Metafields(a) == Metafields(b) <==> forall k :: k in MetafieldKeys ==> Get(a, k) == Get(b, k)
  {
    var ra, rb := Metafields(a), Metafields(b);
    if ra == rb {
      forall k | k in MetafieldKeys
        ensures Get(a, k) == Get(b, k)
      {
        var i :| 0 <= i < |MetafieldKeys| && MetafieldKeys[i] == k;
        assert ra[i].value == rb[i].value;
      }
    }
    if forall k :: k in MetafieldKeys ==> Get(a, k) == Get(b, k) {
      assert forall i :: 0 <= i < 4 ==> ra[i] == rb[i];
    }
  }

  /** `Logradouro + ", " + Number`, with JavaScript's string coercion of missing
      or null parts. */
  function Address1(street: JsValue, number: JsValue): string {
    ToText(street) + ", " + ToText(number)
  }

  /** The separator `", "` starts at position `i` of `s`. */
  predicate SeparatorAt(s: string, i: int) {
    0 <= i && i + 1 < |s| && s[i] == ',' && s[i + 1] == ' '
  }

  /** The position of the last separator in `s`, or -1 when there is none. */
  function LastSeparator(s: string): (k: int)
    ensures k == -1 || SeparatorAt(s, k)
    ensures forall j :: k < j ==> !SeparatorAt(s, j)
    decreases |s|
  {
    if |s| < 2 then -1
    else if s[|s| - 2] == ',' && s[|s| - 1] == ' ' then |s| - 2
    else
      var k := LastSeparator(s[..|s| - 1]);
      assert forall j :: SeparatorAt(s, j) && j + 2 < |s| ==> SeparatorAt(s[..|s| - 1], j);
      k
  }

  /** Reads a street line back as street and number, splitting at its last `", "`
      (so a street that itself holds commas is kept whole). */
  function SplitAddress1(line: string): (string, string) {
    var k := LastSeparator(line);
    if k < 0 then (line, "") else (line[..k], line[k + 2..])
  }

  /** The street line parses back into the street's and the number's text,
      whatever the street holds, as long as the number's text holds no `", "`. */
  lemma Address1RoundTrip(street: JsValue, number: JsValue)
    requires forall j :: !SeparatorAt(ToText(number), j)
    ensures SplitAddress1(Address1(street, number)) == (ToText(street), ToText(number))
  {
    var a, b := ToText(street), ToText(number);
    var line := Address1(street, number);
    assert line == a + ", " + b;
    assert SeparatorAt(line, |a|);
    forall j | |a| < j
      ensures !SeparatorAt(line, j)
    {
      if j == |a| + 1 {
        assert line[j] == ' ';
      } else if SeparatorAt(line, j) {
        assert SeparatorAt(b, j - |a| - 2);
      }
    }
    assert LastSeparator(line) == |a|;
    assert line[..|a|] == a;
    assert line[|a| + 2..] == b;
  }

  /** One of the two identical addresses of the new company location. */
  datatype CompanyAddress = CompanyAddress(
    address1: string,
    address2: JsValue,
    city: JsValue,
    countryCode: string,
    firstName: JsValue,
    lastName: JsValue,
    zip: JsValue,
    zoneCode: string)

  /** The address of the customer update. */
  datatype CustomerAddress = CustomerAddress(
    customerId: JsValue,
    firstName: JsValue,
    company: JsValue,
    address1: string,
    address2: JsValue,
    city: JsValue,
    province: JsValue,
    country: string,
    zip: JsValue,
    phone: JsValue,
    name: JsValue,
    provinceCode: string,
    countryCode: string)

  const CountryCode: string := "BR"
  const CountryName: string := "Brazil"

  /** The billing (and shipping) address of `companyCreate`. */
  function CompanyAddressOf(form: JsValue, zoneCode: string): CompanyAddress {
    CompanyAddress(
      Address1(Get(form, "Logradouro"), Get(form, "Number")),
      Get(form, "Complement"),
      Get(form, "city"),
      CountryCode,
      Get(form, "FirstName"),
      Get(form, "Trading_name"),
      Get(form, "CEP"),
      zoneCode)
  }

  /** The single default address of the customer update. */
  function CustomerAddressOf(form: JsValue, customerId: JsValue, provinceCode: string): CustomerAddress {
    CustomerAddress(
      customerId,
      Get(form, "FirstName"),
      Get(form, "CNPJ"),
      Address1(Get(form, "Logradouro"), Get(form, "Number")),
      Get(form, "Complement"),
      Get(form, "city"),
      Get(form, "UF"),
      CountryName,
      Get(form, "CEP"),
      Get(form, "Cell"),
      Get(form, "Complete_name"),
      provinceCode,
      CountryCode)
  }

  /** The form keys the company address is read from. */
  const CompanyAddressKeys: set<string> :=
    {"Logradouro", "Number", "Complement", "city", "FirstName", "Trading_name", "CEP"}

  /** The company address depends on the form only through its seven address
      keys: two forms that agree there give the same address, whatever else they
      hold, and the country is always Brazil. */
  lemma CompanyAddressReadsAddressKeys(f1: JsValue, f2: JsValue, zoneCode: string)
    requires forall k :: k in CompanyAddressKeys ==> Get(f1, k) == Get(f2, k)
    ensures CompanyAddressOf(f1, zoneCode) == CompanyAddressOf(f2, zoneCode)
    ensures CompanyAddressOf(f1, zoneCode).countryCode == "BR"
    ensures CompanyAddressOf(f1, zoneCode).zoneCode == zoneCode
  {
    assert "Logradouro" in CompanyAddressKeys && "Number" in CompanyAddressKeys;
    assert "Complement" in CompanyAddressKeys && "city" in CompanyAddressKeys;
    assert "FirstName" in CompanyAddressKeys && "Trading_name" in CompanyAddressKeys;
    assert "CEP" in CompanyAddressKeys;
  }

  /** The customer's address repeats the company address where the two share a
      field: the same street line, complement, city, postal code, first name and
      country, and the province code equal to the company's zone code. It also
      names the state by the submitted `UF` and the country by name. */
  lemma CustomerAddressMatchesCompany(form: JsValue, customerId: JsValue, code: string)
    ensures var c, p := CompanyAddressOf(form, code), CustomerAddressOf(form, customerId, code);
      && p.address1 == c.address1
      && p.address2 == c.address2
      && p.city == c.city
      && p.zip == c.zip
      && p.firstName == c.firstName
      && p.countryCode == c.countryCode
      && p.provinceCode == c.zoneCode
      && p.province == Get(form, "UF")
      && p.country == "Brazil"
      && p.customerId == customerId
  {
  }
}

=== FILE: province.dfy ===
/**
 The state-name lookup at the top of `updateMetafields`: a Brazilian state name, as
 typed in the registration form's `UF` field, becomes the two-letter code Shopify
 expects as a zone code, or the empty string when the name is not one of the 27
 spellings the handler knows.
 */
module Province {
  import opened JsValues

  /** The 27 federative units, name to code, as an explicit table. It is the
      reference that the branch-by-branch lookup below is checked against. */
  const Regions: map<string, string> :=
    map[
      "Acre" := "AC",
      "Alagoas" := "AL",
      "Amapá" := "AP",
      "Amazonas" := "AM",
      "Bahia" := "BA",
      "Ceará" := "CE",
      "Distrito Federal" := "DF",
      "Espírito Santo" := "ES",
      "Goiás" := "GO",
      "Maranhão" := "MA",
      "Mato Grosso" := "MT",
      "Mato Grosso do Sul" := "MS",
      "Minas Gerais" := "MG",
      "Pará" := "PA",
      "Paraíba" := "PB",
      "Paraná" := "PR",
      "Pernambuco" := "PE",
      "Piauí" := "PI",
      "Rio de Janeiro" := "RJ",
      "Rio Grande do Norte" := "RN",
      "Rio Grande do Sul" := "RS",
      "Rondônia" := "RO",
      "Roraima" := "RR",
      "Santa Catarina" := "SC",
      "São Paulo" := "SP",
      "Sergipe" := "SE",
      "Tocantins" := "TO"
    ]

  predicate IsUpperAscii(c: char) {
    'A' <= c <= 'Z'
  }

  /** A code Shopify accepts as a zone code: exactly two upper-case ASCII letters. */
  predicate IsRegionCode(code: string) {
    |code| == 2 && IsUpperAscii(code[0]) && IsUpperAscii(code[1])
  }

  /** The `switch (customFieldValues.UF)` with `provinceCode` starting as `''`. Each
      case compares the whole name exactly, so case, accent and spacing variants
      fall through to the default and leave the code empty. */
  function ProvinceCode(uf: string): (code: string)
    ensures code == "" || IsRegionCode(code)
  {
    if uf == "Acre" then "AC"
    else if uf == "Alagoas" then "AL"
    else if uf == "Amapá" then "AP"
    else if uf == "Amazonas" then "AM"
    else if uf == "Bahia" then "BA"
    else if uf == "Ceará" then "CE"
    else if uf == "Distrito Federal" then "DF"
    else if uf == "Espírito Santo" then "ES"
    else if uf == "Goiás" then "GO"
    else if uf == "Maranhão" then "MA"
    else if uf == "Mato Grosso" then "MT"
    else if uf == "Mato Grosso do Sul" then "MS"
    else if uf == "Minas Gerais" then "MG"
    else if uf == "Pará" then "PA"
    else if uf == "Paraíba" then "PB"
    else if uf == "Paraná" then "PR"
    else if uf == "Pernambuco" then "PE"
    else if uf == "Piauí" then "PI"
    else if uf == "Rio de Janeiro" then "RJ"
    else if uf == "Rio Grande do Norte" then "RN"
    else if uf == "Rio Grande do Sul" then "RS"
    else if uf == "Rondônia" then "RO"
    else if uf == "Roraima" then "RR"
    else if uf == "Santa Catarina" then "SC"
    else if uf == "São Paulo" then "SP"
    else if uf == "Sergipe" then "SE"
    else if uf == "Tocantins" then "TO"
    else ""
  }

  /** The switch applied to whatever `UF` holds: strict equality means only a
      string can match a case, so `undefined`, `null` and objects give `''`. */
  function ProvinceOf(uf: JsValue): (code: string)
    ensures code != "" ==> IsRegionCode(code)
    ensures code != "" ==> uf.Str? && RegionName(code) == uf.s
    ensures uf.Str? && uf.s in Regions ==> code == Regions[uf.s]
    ensures !(uf.Str? && uf.s in Regions) ==> code == ""
  {
    match uf
    case Str(name) =>
      NameCodeRoundTrip(name);
      if name in Regions then ProvinceCodeListed(name); ProvinceCode(name)
      else ProvinceCodeUnlisted(name); ProvinceCode(name)
    case _ => ""
  }

  /** The reverse lookup, code to state name, with `''` for a code no state has. */
  function RegionName(code: string): (name: string)
  {
    if |code| != 2 then ""
    else
      match (code[0], code[1])
      case ('A', 'C') => "Acre"
      case ('A', 'L') => "Alagoas"
      case ('A', 'P') => "Amapá"
      case ('A', 'M') => "Amazonas"
      case ('B', 'A') => "Bahia"
      case ('C', 'E') => "Ceará"
      case ('D', 'F') => "Distrito Federal"
      case ('E', 'S') => "Espírito Santo"
      case ('G', 'O') => "Goiás"
      case ('M', 'A') => "Maranhão"
      case ('M', 'T') => "Mato Grosso"
      case ('M', 'S') => "Mato Grosso do Sul"
      case ('M', 'G') => "Minas Gerais"
      case ('P', 'A') => "Pará"
      case ('P', 'B') => "Paraíba"
      case ('P', 'R') => "Paraná"
      case ('P', 'E') => "Pernambuco"
      case ('P', 'I') => "Piauí"
      case ('R', 'J') => "Rio de Janeiro"
      case ('R', 'N') => "Rio Grande do Norte"
      case ('R', 'S') => "Rio Grande do Sul"
      case ('R', 'O') => "Rondônia"
      case ('R', 'R') => "Roraima"
      case ('S', 'C') => "Santa Catarina"
      case ('S', 'P') => "São Paulo"
      case ('S', 'E') => "Sergipe"
      case ('T', 'O') => "Tocantins"
      case _ => ""
  }

  /** Every name listed in the table gets its listed code. */
  lemma ProvinceCodeListed(uf: string)
    requires uf in Regions
    ensures ProvinceCode(uf) == Regions[uf]
  {
  }

  /** Every other string, including case and accent variants of a listed name,
      gets `''`. */
  lemma ProvinceCodeUnlisted(uf: string)
    requires uf !in Regions
    ensures ProvinceCode(uf) == ""
  {
  }

  /** The reverse lookup on every listed code, in three parts so that each proof
      stays small. */
  lemma RegionNameOfListedCodesA()
    ensures RegionName("AC") == "Acre"
    ensures RegionName("AL") == "Alagoas"
    ensures RegionName("AP") == "Amapá"
    ensures RegionName("AM") == "Amazonas"
    ensures RegionName("BA") == "Bahia"
    ensures RegionName("CE") == "Ceará"
    ensures RegionName("DF") == "Distrito Federal"
    ensures RegionName("ES") == "Espírito Santo"
    ensures RegionName("GO") == "Goiás"
  {
  }

  lemma RegionNameOfListedCodesB()
    ensures RegionName("MA") == "Maranhão"
    ensures RegionName("MT") == "Mato Grosso"
    ensures RegionName("MS") == "Mato Grosso do Sul"
    ensures RegionName("MG") == "Minas Gerais"
    ensures RegionName("PA") == "Pará"
    ensures RegionName("PB") == "Paraíba"
    ensures RegionName("PR") == "Paraná"
    ensures RegionName("PE") == "Pernambuco"
    ensures RegionName("PI") == "Piauí"
  {
  }

  lemma RegionNameOfListedCodesC()
    ensures RegionName("RJ") == "Rio de Janeiro"
    ensures RegionName("RN") == "Rio Grande do Norte"
    ensures RegionName("RS") == "Rio Grande do Sul"
    ensures RegionName("RO") == "Rondônia"
    ensures RegionName("RR") == "Roraima"
    ensures RegionName("SC") == "Santa Catarina"
    ensures RegionName("SP") == "São Paulo"
    ensures RegionName("SE") == "Sergipe"
    ensures RegionName("TO") == "Tocantins"
  {
  }

  /** Reading a recognised name's code back through the reverse lookup gives the
      name again. */
  lemma NameCodeRoundTrip(uf: string)
    ensures ProvinceCode(uf) != "" ==> RegionName(ProvinceCode(uf)) == uf
  {
    RegionNameOfListedCodesA();
    RegionNameOfListedCodesB();
    RegionNameOfListedCodesC();
    if uf == "Acre" {
    } else if uf == "Alagoas" {
    } else if uf == "Amapá" {
    } else if uf == "Amazonas" {
    } else if uf == "Bahia" {
    } else if uf == "Ceará" {
    } else if uf == "Distrito Federal" {
    } else if uf == "Espírito Santo" {
    } else if uf == "Goiás" {
    } else if uf == "Maranhão" {
    } else if uf == "Mato Grosso" {
    } else if uf == "Mato Grosso do Sul" {
    } else if uf == "Minas Gerais" {
    } else if uf == "Pará" {
    } else if uf == "Paraíba" {
    } else if uf == "Paraná" {
    } else if uf == "Pernambuco" {
    } else if uf == "Piauí" {
    } else if uf == "Rio de Janeiro" {
    } else if uf == "Rio Grande do Norte" {
    } else if uf == "Rio Grande do Sul" {
    } else if uf == "Rondônia" {
    } else if uf == "Roraima" {
    } else if uf == "Santa Catarina" {
    } else if uf == "São Paulo" {
    } else if uf == "Sergipe" {
    } else if uf == "Tocantins" {
    }
  }

  /** Over recognised names the lookup is injective: no two spellings share a code. */
  lemma ProvinceCodeInjective(a: string, b: string)
    requires ProvinceCode(a) == ProvinceCode(b) != ""
    ensures a == b
  {
    NameCodeRoundTrip(a);
    NameCodeRoundTrip(b);
  }

  /** The table itself is injective and holds only well-formed codes. */
  lemma RegionsInjective(a: string, b: string)
    requires a in Regions && b in Regions && Regions[a] == Regions[b]
    ensures a == b
    ensures IsRegionCode(Regions[a])
  {
    ProvinceCodeListed(a);
    ProvinceCodeListed(b);
    ProvinceCodeInjective(a, b);
  }
}

=== FILE: registration.dfy ===
/**
 The registration flow: the POST handler's guard and the fixed sequence of
 Shopify calls made by `updateMetafields`, with every network answer abstracted
 to an `Outcome`. A run is the list of calls that go out, in order, together
 with whether the flow ended in its outer `catch`.
 */
module Registration {
  import opened JsValues
  import opened ShopifyId
  import opened Province
  import opened Payload

  /** What a Shopify call comes back with. `Ok(gid)`: a response carrying the new
      record's global id. `UserError`: a response that reports errors, either a
      top-level `errors` or a non-empty `userErrors`; for customer creation, any
      response without a customer. `Throws`: the request throws, or reading its
      response does, as when company creation reads `.id` of a `null` company in
      a response that reports no error. */
  datatype Outcome = Ok(gid: string) | UserError | Throws

  /** The answers the four calls of one request would get, in call order. For the
      contact assignment and the update only `Throws` matters: their responses
      are not inspected. */
  datatype Network = Network(customerCreate: Outcome, companyCreate: Outcome, assign: Outcome, update: Outcome)

  /** An outbound call with the arguments the model tracks. */
  datatype Call =
    | CustomerCreate(firstName: JsValue, lastName: JsValue, email: JsValue)
    | CompanyCreate(name: JsValue, billing: CompanyAddress, shipping: CompanyAddress)
    | AssignContact(companyGid: string, customerGid: string)
    | CustomerUpdate(customerPath: string, address: CustomerAddress, metafields: seq<Metafield>)

  /** The position of each kind of call in the fixed order of the flow. */
  function Rank(c: Call): nat {
    match c
    case CustomerCreate(_, _, _) => 0
    case CompanyCreate(_, _, _) => 1
    case AssignContact(_, _) => 2
    case CustomerUpdate(_, _, _) => 3
  }

  /** The calls that went out, and whether the outer `catch` of
      `updateMetafields` logged an error. */
  datatype Run = Run(calls: seq<Call>, caught: bool)

  /** `createIdUser`: the numeric customer id when the response carries a
      customer, `null` otherwise. Every failure, thrown or returned, is caught and
      turned into `null`, so the call never throws. */
  function CreateIdUser(result: Outcome): (id: JsValue)
    ensures id.Null? || (id.Str? && IsNumeric(id.s))
    ensures id.Str? <==> result.Ok?
    ensures result.Ok? ==> StripNonDigits(result.gid) == id.s
  {
    match result
    case Ok(gid) => Str(StripNonDigits(gid))
    case _ => Null
  }

  /** `createCompany`: the numeric company id on success, `undefined` when the
      response reports GraphQL or user errors (logged, then the function falls
      off its end), and a rethrow when the request or the reading of its response
      throws. */
  function CreateCompany(result: Outcome): (id: Completion<JsValue>)
    ensures id.Abrupt? <==> result.Throws?
    ensures id == Normal(Undefined) <==> result.UserError?
    ensures id.Normal? && id.value != Undefined ==> id.value.Str? && IsNumeric(id.value.s)
    ensures result.Ok? ==> id == Normal(Str(StripNonDigits(result.gid)))
  {
    match result
    case Ok(gid) => Normal(Str(StripNonDigits(gid)))
    case UserError => Normal(Undefined)
    case Throws => Abrupt
  }

  /** The guard in front of company creation: `customFieldValues !== undefined &&
      provinceCode !== undefined`. */
  predicate CompanyGuard(form: JsValue, provinceCode: JsValue) {
    form != Undefined && provinceCode != Undefined
  }

  /** The last step: building the PUT body reads `customMetafieldsValues[key]`,
      which throws before the request is sent when the metafield values are
      missing; otherwise the update goes out and a failure is caught. */
  function FinishWithUpdate(done: seq<Call>, form: JsValue, meta: JsValue, customerId: JsValue, provinceCode: string, net: Network): (run: Run)
    ensures |run.calls| == |done| + (if Dereferenceable(meta) then 1 else 0)
    ensures run.calls[..|done|] == done
    ensures run.caught <==> !Dereferenceable(meta) || net.update.Throws?
  {
    if !Dereferenceable(meta) then Run(done, true)
    else
      var update := CustomerUpdate(ToText(customerId), CustomerAddressOf(form, customerId, provinceCode), Metafields(meta));
      Run(done + [update], net.update.Throws?)
  }

  /** `updateMetafields(customFieldValues, customMetafieldsValues)` with the
      network's answers given up front. Reading `customFieldValues.UF` throws at
      once when the form is missing; after that the customer is created, then the
      company, then the contact assignment, then the customer update, and the
      first call that throws ends the run in the outer `catch`. Whatever
      happens, the calls that went out are a prefix of that fixed order. */
  function UpdateMetafields(form: JsValue, meta: JsValue, net: Network): (run: Run)
    ensures |run.calls| <= 4
    ensures forall i :: 0 <= i < |run.calls| ==> Rank(run.calls[i]) == i
  {
    if !Dereferenceable(form) then Run([], true)
    else
      var provinceCode := ProvinceOf(Get(form, "UF"));
      var customerCall := CustomerCreate(Get(form, "FirstName"), Get(form, "trading_name"), Get(form, "Email"));
      var customerId := CreateIdUser(net.customerCreate);
      if CompanyGuard(form, Str(provinceCode)) then
        var address := CompanyAddressOf(form, provinceCode);
        var companyCall := CompanyCreate(Get(form, "FirstName"), address, address);
        match CreateCompany(net.companyCreate)
        case Abrupt => Run([customerCall, companyCall], true)
        case Normal(companyId) =>
          var assignCall := AssignContact(CompanyGid(ToText(companyId)), CustomerGid(ToText(customerId)));
          if net.assign.Throws? then Run([customerCall, companyCall, assignCall], true)
          else FinishWithUpdate([customerCall, companyCall, assignCall], form, meta, customerId, provinceCode, net)
      else
        FinishWithUpdate([customerCall], form, meta, customerId, provinceCode, net)
  }

  /** `provinceCode` is a string from its declaration on, so once the form can be
      read the guard in front of company creation always passes. */
  lemma CompanyGuardAlwaysHolds(form: JsValue, uf: JsValue)
    requires Dereferenceable(form)
    ensures CompanyGuard(form, Str(ProvinceOf(uf)))
  {
  }

  /** Which steps run, as a function of the inputs and the network's answers:
      customer creation and company creation run whenever the form can be read,
      the assignment whenever company creation returns (with an id or with
      `undefined`), and the update whenever neither company creation nor the
      assignment threw and the metafield values can be read. The customer
      creation's outcome never stops a later step. */
  lemma StepsThatRun(form: JsValue, meta: JsValue, net: Network)
    ensures var run := UpdateMetafields(form, meta, net);
      && (|run.calls| >= 1 <==> Dereferenceable(form))
      && (|run.calls| >= 2 <==> Dereferenceable(form))
      && (|run.calls| >= 3 <==> Dereferenceable(form) && !net.companyCreate.Throws?)
      && (|run.calls| == 4 <==>
            Dereferenceable(form) && !net.companyCreate.Throws? && !net.assign.Throws? && Dereferenceable(meta))
      && (run.caught <==>
            !Dereferenceable(form) || net.companyCreate.Throws? || net.assign.Throws? || !Dereferenceable(meta) || net.update.Throws?)
  {
  }

  /** The customer is created from the form's `FirstName`, `trading_name` and
      `Email`, whatever the network answers later. */
  lemma CustomerCreatedFromForm(form: JsValue, meta: JsValue, net: Network)
    requires Dereferenceable(form)
    ensures var run := UpdateMetafields(form, meta, net);
      run.calls[0] == CustomerCreate(Get(form, "FirstName"), Get(form, "trading_name"), Get(form, "Email"))
  {
    StepsThatRun(form, meta, net);
  }

  /** Company creation is named after the form's `FirstName` and sends the
      address built from the form, with the looked-up code as zone code, as both
      billing and shipping address, even when the state name was not recognised
      and the code is `''`. Its street line reads back as the submitted street
      and number whenever the number holds no `", "`. */
  lemma CompanyCreatedWithProvince(form: JsValue, meta: JsValue, net: Network)
    requires Dereferenceable(form)
    ensures var run := UpdateMetafields(form, meta, net);
      && run.calls[1].CompanyCreate?
      && run.calls[1].name == Get(form, "FirstName")
      && run.calls[1].billing == CompanyAddressOf(form, ProvinceOf(Get(form, "UF")))
      && run.calls[1].billing == run.calls[1].shipping
      && run.calls[1].billing.zoneCode == ProvinceOf(Get(form, "UF"))
      && (!(Get(form, "UF").Str? && Get(form, "UF").s in Regions) ==> run.calls[1].billing.zoneCode == "")
    ensures var run, number := UpdateMetafields(form, meta, net), ToText(Get(form, "Number"));
      (forall j :: !SeparatorAt(number, j)) ==>
        SplitAddress1(run.calls[1].billing.address1) == (ToText(Get(form, "Logradouro")), number)
  {
    StepsThatRun(form, meta, net);
    if forall j :: !SeparatorAt(ToText(Get(form, "Number")), j) {
      Address1RoundTrip(Get(form, "Logradouro"), Get(form, "Number"));
    }
  }

  /** The ids handed to the contact assignment: the company id when company
      creation succeeded and the text "undefined" when it reported errors; the
      customer id when customer creation succeeded and the text "null"
      otherwise. */
  lemma AssignmentArguments(form: JsValue, meta: JsValue, net: Network)
    requires Dereferenceable(form) && !net.companyCreate.Throws?
    ensures var run := UpdateMetafields(form, meta, net);
      && run.calls[2].AssignContact?
      && (net.companyCreate.Ok? ==> run.calls[2].companyGid == CompanyGid(StripNonDigits(net.companyCreate.gid)))
      && (net.companyCreate.UserError? ==> run.calls[2].companyGid == CompanyGid("undefined"))
      && (net.customerCreate.Ok? ==> run.calls[2].customerGid == CustomerGid(StripNonDigits(net.customerCreate.gid)))
      && (!net.customerCreate.Ok? ==> run.calls[2].customerGid == CustomerGid("null"))
  {
    StepsThatRun(form, meta, net);
  }

  /** The customer update targets the customer id as text ("null" when customer
      creation failed), sends the customer address built from the form with that
      id and the looked-up code, so the same street line and zone code as the
      company addresses, and sends the four metafields. */
  lemma UpdateArguments(form: JsValue, meta: JsValue, net: Network)
    requires |UpdateMetafields(form, meta, net).calls| == 4
    ensures var run := UpdateMetafields(form, meta, net);
      && run.calls[3].CustomerUpdate?
      && run.calls[3].customerPath == (if net.customerCreate.Ok? then StripNonDigits(net.customerCreate.gid) else "null")
      && run.calls[3].address == CustomerAddressOf(form, CreateIdUser(net.customerCreate), ProvinceOf(Get(form, "UF")))
      && run.calls[3].address.address1 == run.calls[1].billing.address1
      && run.calls[3].address.provinceCode == run.calls[1].billing.zoneCode
      && run.calls[3].metafields == Metafields(meta)
  {
    StepsThatRun(form, meta, net);
  }

  /** What the POST handler answers, and the calls the request sets off. The
      flow is started without being awaited, so the status never depends on
      how the calls fare. */
  datatype Reply = Reply(status: int, body: string, dispatched: seq<Call>)

  const Accepted: string := "Form data received successfully"
  const Rejected: string := "Invalid input: customFieldValues or customMetafieldsValues is missing"

  /** The POST handler for `/process-shopify-registration`. It answers 400, with
      no call made, exactly when `customer` or `metafield` is `null`; the
      comparison is the strict `!== null`, so a missing (`undefined`) field is
      let through and answered 200 like any other. */
  function Handle(body: map<string, JsValue>, net: Network): (r: Reply)
    ensures r.status == 400 <==> Property(body, "customer") == Null || Property(body, "metafield") == Null
    ensures r.status == 200 || r.status == 400
    ensures r.status == 400 ==> r.dispatched == [] && r.body == Rejected
    ensures r.status == 200 ==>
      r.body == Accepted && r.dispatched == UpdateMetafields(Property(body, "customer"), Property(body, "metafield"), net).calls
  {
    var customer := Property(body, "customer");
    var metafield := Property(body, "metafield");
    if customer != Null && metafield != Null then
      Reply(200, Accepted, UpdateMetafields(customer, metafield, net).calls)
    else
      Reply(400, Rejected, [])
  }

  /** The status depends on the request alone, never on the network's answers. */
  lemma StatusIgnoresNetwork(body: map<string, JsValue>, n1: Network, n2: Network)
    ensures Handle(body, n1).status == Handle(body, n2).status
  {
  }

  /** A request whose `customer` field is missing is acknowledged with 200 but sets
      off no call at all, because the flow throws on its first property read. The
      comments beside the guard say that missing values are rejected too. */
  lemma MissingFormAcknowledgedButIdle(body: map<string, JsValue>, net: Network)
    requires "customer" !in body && Property(body, "metafield") != Null
    ensures Handle(body, net).status == 200
    ensures Handle(body, net).dispatched == []
  {
  }

  /** The guard the comments beside it describe: `customer` and `metafield` must be
      neither `null` nor `undefined` (the loose `!= null`). */
  function HandleAsIntended(body: map<string, JsValue>, net: Network): (r: Reply)
    ensures r.status == 400 <==> !Dereferenceable(Property(body, "customer")) || !Dereferenceable(Property(body, "metafield"))
    ensures r.status == 400 ==> r.dispatched == [] && r.body == Rejected
    ensures r.status == 200 ==>
      r.body == Accepted && r.dispatched == UpdateMetafields(Property(body, "customer"), Property(body, "metafield"), net).calls
  {
    var customer := Property(body, "customer");
    var metafield := Property(body, "metafield");
    if customer != Null && customer != Undefined && metafield != Null && metafield != Undefined then
      Reply(200, Accepted, UpdateMetafields(customer, metafield, net).calls)
    else
      Reply(400, Rejected, [])
  }

  /** With the intended guard, every acknowledged request gets at least as far as
      company creation, and it reaches the customer update unless company creation
      or the assignment throws. */
  lemma IntendedGuardReachesUpdate(body: map<string, JsValue>, net: Network)
    requires HandleAsIntended(body, net).status == 200
    ensures |HandleAsIntended(body, net).dispatched| >= 2
    ensures !net.companyCreate.Throws? && !net.assign.Throws? ==> |HandleAsIntended(body, net).dispatched| == 4
  {
    StepsThatRun(Property(body, "customer"), Property(body, "metafield"), net);
  }
}

=== FILE: shopify_id.dfy ===
/**
 Shopify identifiers as the handler moves them around. The GraphQL API answers
 with global ids such as `gid://shopify/Customer/7001`; the handler keeps only the
 digits (`id.replace(/\D/g, '')`; in JavaScript `\d` is the ASCII class '0'..'9'
 whatever the flags) and later wraps a numeric id back into a global id for the
 company-contact mutation.
 */
module ShopifyId {

  predicate IsDigit(c: char) {
    '0' <= c <= '9'
  }

  /** A string made of ASCII digits only (the empty string included). */
  predicate IsNumeric(s: string) {
    forall i :: 0 <= i < |s| ==> IsDigit(s[i])
  }

  /** `a` is `b` with some characters deleted. */
  predicate IsSubsequence(a: string, b: string)
    decreases |b|
  {
    |a| == 0 || (|b| > 0 && ((a[0] == b[0] && IsSubsequence(a[1..], b[1..])) || IsSubsequence(a, b[1..])))
  }

  /** `s.replace(/\D/g, '')`: every character that is not a digit is deleted. */
  function StripNonDigits(s: string): (r: string)
    ensures IsNumeric(r)
    ensures |r| <= |s|
  {
    if s == [] then []
    else if IsDigit(s[0]) then [s[0]] + StripNonDigits(s[1..])
    else StripNonDigits(s[1..])
  }

  /** The scheme and namespace that every Shopify global id starts with. */
  const GidScheme: string := "gid://shopify/"
  const CompanyPrefix: string := GidScheme + "Company/"
  const CustomerPrefix: string := GidScheme + "Customer/"

  /** The template literal `gid://shopify/Company/${id}`. */
  function CompanyGid(id: string): string {
    CompanyPrefix + id
  }

  /** The template literal `gid://shopify/Customer/${id}`. */
  function CustomerGid(id: string): string {
    CustomerPrefix + id
  }

  /** The result keeps the input's characters in their original order. */
  lemma {:induction false} StripIsSubsequence(s: string)
    ensures IsSubsequence(StripNonDigits(s), s)
  {
    if s != [] {
      StripIsSubsequence(s[1..]);
      var t := StripNonDigits(s[1..]);
      if IsDigit(s[0]) {
        assert StripNonDigits(s)[1..] == t;
      } else if |t| > 0 {
        assert IsSubsequence(t, s[1..]);
      }
    }
  }

  /** The result holds every digit of the input as often as the input does, and
      nothing else. With `StripIsSubsequence` this pins the result down: the
      input's digits, all of them, in their original order. */
  lemma {:induction false} StripKeepsEveryDigit(s: string)
    ensures forall c :: multiset(StripNonDigits(s))[c] == if IsDigit(c) then multiset(s)[c] else 0
  {
    if s != [] {
      StripKeepsEveryDigit(s[1..]);
      assert s == [s[0]] + s[1..];
      assert multiset(s) == multiset{s[0]} + multiset(s[1..]);
      if IsDigit(s[0]) {
        assert multiset(StripNonDigits(s)) == multiset{s[0]} + multiset(StripNonDigits(s[1..]));
      }
    }
  }

  /** Stripping works piece by piece: it distributes over concatenation. */
  lemma {:induction false} StripConcat(a: string, b: string)
    ensures StripNonDigits(a + b) == StripNonDigits(a) + StripNonDigits(b)
  {
    if a == [] {
      assert a + b == b;
    } else {
      assert (a + b)[0] == a[0];
      assert (a + b)[1..] == a[1..] + b;
      StripConcat(a[1..], b);
      if IsDigit(a[0]) {
        assert [a[0]] + (StripNonDigits(a[1..]) + StripNonDigits(b))
            == ([a[0]] + StripNonDigits(a[1..])) + StripNonDigits(b);
      }
    }
  }

  /** A string is left unchanged exactly when it is already numeric. */
  lemma {:induction false} StripFixesNumeric(s: string)
    ensures StripNonDigits(s) == s <==> IsNumeric(s)
  {
    if s != [] && IsNumeric(s) {
      assert IsNumeric(s[1..]) by {
        forall i | 0 <= i < |s[1..]|
          ensures IsDigit(s[1..][i])
        {
          assert s[1..][i] == s[i + 1];
        }
      }
      StripFixesNumeric(s[1..]);
    }
  }

  /** Applying the replacement twice is the same as applying it once. */
  lemma StripIdempotent(s: string)
    ensures StripNonDigits(StripNonDigits(s)) == StripNonDigits(s)
  {
    StripFixesNumeric(StripNonDigits(s));
  }

  /** Neither global-id prefix contains a digit. Each prefix is taken apart into
      pieces short enough for their stripping to be evaluated outright. */
  lemma CompanyPrefixHasNoDigits()
    ensures StripNonDigits(CompanyPrefix) == []
  {
    SchemeHasNoDigits();
    assert StripNonDigits("Company/") == [];
    StripConcat(GidScheme, "Company/");
  }

  lemma CustomerPrefixHasNoDigits()
    ensures StripNonDigits(CustomerPrefix) == []
  {
    SchemeHasNoDigits();
    assert StripNonDigits("Customer/") == [];
    StripConcat(GidScheme, "Customer/");
  }

  lemma SchemeHasNoDigits()
    ensures StripNonDigits(GidScheme) == []
  {
  }

  /** Stripping a global id gives the digits of its trailing segment, whatever that
      segment holds. */
  lemma GidStripsToTail(id: string)
    ensures StripNonDigits(CompanyGid(id)) == StripNonDigits(id)
    ensures StripNonDigits(CustomerGid(id)) == StripNonDigits(id)
  {
    CompanyPrefixHasNoDigits();
    CustomerPrefixHasNoDigits();
    StripConcat(CompanyPrefix, id);
    StripConcat(CustomerPrefix, id);
  }

  /** Wrapping a numeric id and stripping it again gives the id back, and a global
      id whose trailing segment is numeric is rebuilt exactly from its digits. */
  lemma GidRoundTrip(id: string)
    requires IsNumeric(id)
    ensures StripNonDigits(CompanyGid(id)) == id
    ensures StripNonDigits(CustomerGid(id)) == id
    ensures CompanyGid(StripNonDigits(CompanyGid(id))) == CompanyGid(id)
    ensures CustomerGid(StripNonDigits(CustomerGid(id))) == CustomerGid(id)
  {
    GidStripsToTail(id);
    StripFixesNumeric(id);
  }

  /** Without a numeric tail the round trip loses information: the stripped id
      keeps only the digits. */
  lemma GidRoundTripNeedsNumericTail()
    ensures StripNonDigits(CompanyGid("12a3")) == "123"
  {
    GidStripsToTail("12a3");
  }

  /** Wrapping loses nothing and never mixes the two kinds of record: each wrapper
      is injective, and no company global id equals a customer global id. */
  lemma GidWrappingInjective(a: string, b: string)
    ensures CompanyGid(a) == CompanyGid(b) <==> a == b
    ensures CustomerGid(a) == CustomerGid(b) <==> a == b
    ensures CompanyGid(a) != CustomerGid(b)
  {
    if CompanyGid(a) == CompanyGid(b) {
      assert a == CompanyGid(a)[|CompanyPrefix|..];
      assert b == CompanyGid(b)[|CompanyPrefix|..];
    }
    if CustomerGid(a) == CustomerGid(b) {
      assert a == CustomerGid(a)[|CustomerPrefix|..];
      assert b == CustomerGid(b)[|CustomerPrefix|..];
    }
    assert |GidScheme| == 14;
    assert CompanyGid(a)[15] == 'o';
    assert CustomerGid(b)[15] == 'u';
  }
}
